=== FILE: README.md ===
# Hook-mediated key-value store, modelled in Dafny

This project models the core of a small interactive key-value store. Every
value goes through a rule engine on the way in and on the way out. On `ADD`, the
`on_add` hook validates or canonicalises the value, and the store writes only
when the hook reports success. On `GET`, the `on_get` hook renders the stored
value for display. When no rule source is supplied, an embedded Lua rule set
provides both hooks:

- Keys starting with `cpf_` hold Brazilian CPF numbers. The hooks check the two
  weighted-sum mod-11 check digits and render the number as `XXX.XXX.XXX-XX`.
- Keys starting with `data_` hold ISO 8601 calendar dates in the extended
  complete form `YYYY-MM-DD` (section 4.1.2.2 of ISO 8601:2004). The hooks
  render them as `DD/MM/YYYY`.
- All other keys pass through both hooks unchanged.

A `GET` that misses on a key such as `cpfX` retries once with `cpf_X`.

Modules, leaf first:

- `Common` (common.dfy): `Option`, `Result`, and the rule-set `Edition`.
- `Text` (text.dfy): ASCII digits, Lua `tonumber` on digit strings, the `%0Nd` format directive, and prefix matching.
- `Cpf` (cpf.dfy): the check digits, the repeated-digit pattern, validity, and the grouped rendering.
- `IsoDate` (isodate.dfy): date parsing, the `YYYY-MM-DD` re-serialisation, and the `DD/MM/YYYY` rendering.
- `Hook` (hook.dfy): the hook reply, `TransformResult`, and `call_lua_transform`.
- `DefaultRules` (rules.dfy): the embedded `on_add` and `on_get`.
- `Console` (console.dfy): trimming, `splitn(3, ' ')`, and command recognition.
- `Store` (store.dfy): the rule engine, ADD, GET with the fallback, and one console turn.
- `Scenarios` (scenarios.dfy): concrete sessions, line by line.

The Lua interpreter is replaced by the `HookReply` datatype. A reply is one of
three things: no such global function, a non-table return, or a table whose
`ok`, `value` and `error` fields hold some Lua value. A rule engine is a pair of
pure functions from key and value to such a reply. `Store.Embedded` is the
engine built from the embedded rule set.

The embedded rules come in two editions (`Common.Edition`), passed to the CPF test, the date parser and both hooks alike:

- `AsWritten` follows the code exactly.
- `Corrected` fixes the two defects listed under Findings.

Every store-level lemma holds for both editions.

The model follows what the code does, not the intent of its comments:

- The reserved prefixes are `cpf_` and `data_`.
- A repeated-digit CPF such as `11111111111` is accepted, because its check
  digits agree and the repeated-digit pattern cannot match 11 digits.
- An impossible date such as `1990-02-30` is accepted, because the `os.time`
  step never rejects.
- A non-table hook return is treated as pass-through success.

## Model

| member | source | states |
|---|---|---|
| Text.DecimalValue | src/main.rs:176 | `tonumber` of a digit string of length n is below 10^n |
| Text.PadDecimal | src/main.rs:209 | `%0Nd` yields only digits, at least N of them and exactly N for a number below 10^N, and reading them back with `tonumber` gives the number printed |
| Text.PadDecimalOfDigits | src/main.rs:174-176 | printing a captured digit group's value at the group's own width reproduces the group |
| Cpf.CheckDigit | src/main.rs:146-157 | the computed check digit is always one of 0..9 |
| Cpf.CheckDigitBalancesSum | src/main.rs:146-157 | the check digit is the unique digit that makes the weighted sum plus the digit divisible by 11, or 0 when that digit would have to be 10 (both directions) |
| Cpf.CalcDigit | src/main.rs:146-157 | the loop with weight `len + 1 - i + 1` computes the reference check digit, a value in 0..9 |
| Cpf.AllSameAsWritten | src/main.rs:142-144 | the pattern `^(%d)%1+$` can only match a three-character string ending in a literal `+`, so it never matches a digit string |
| Cpf.IsValid | src/main.rs:159-165 | a valid CPF is 11 digits whose check digits agree, and in the corrected edition not all equal; `IsValidAsWritten` and `IsValidCorrected` give both directions |
| Cpf.IsValidAsWritten | src/main.rs:159-165 | as written, a CPF is valid exactly when it is 11 digits whose 10th and 11th digits equal the two computed check digits |
| Cpf.IsValidCorrected | src/main.rs:159-165 | the corrected edition accepts exactly what the as-written edition accepts, minus the CPFs whose 11 digits are all equal |
| Cpf.RepdigitsPassCheckDigits | src/main.rs:146-164 | every 11-character string of one repeated digit satisfies both check-digit equations |
| Cpf.Format | src/main.rs:167-170 | the rendering of 11 characters is 14 long with `.` at positions 4 and 8 and `-` at 12; `FormatShape` and `FormatThenStrip` give the groups and the way back |
| Cpf.FormatShape | src/main.rs:167-170 | the rendering of 11 characters is 14 long, with `.` at positions 4 and 8 and `-` at 12, and the input's groups of 3, 3, 3 and 2 in between |
| Cpf.FormatThenStrip | src/main.rs:167-170 | removing `.` and `-` from the rendering of 11 digits gives the digits back |
| IsoDate.Parse | src/main.rs:173-183 | a string parses exactly when it is 4 digits, `-`, 2 digits, `-`, 2 digits with month 1..12 and day 1..31 (and, with the calendar test, a real day of that month); the date holds the three groups' values; a shape failure reports the format message |
| IsoDate.ParseErrorOrder | src/main.rs:174-181 | failures are reported in order (format, then month, then day), and as written the `os.time` message is never produced |
| IsoDate.IsoFormat | src/main.rs:209 | a date with a four-digit year and two-digit month and day serialises to `YYYY-MM-DD` whose groups read back as the year, month and day |
| IsoDate.IsoFormatOfParsed | src/main.rs:203-209 | re-serialising a parsed date with `%04d-%02d-%02d` reproduces the input byte for byte |
| IsoDate.ParseOfIsoFormat | src/main.rs:173-183 | any in-range date, serialised, parses back to the same date |
| IsoDate.BrFormat | src/main.rs:185-187 | such a date renders as ten characters with `/` at positions 3 and 6; `BrFormatShape` gives the groups |
| IsoDate.BrFormatOfParsed | src/main.rs:185-187 | a parsed date renders as its day, month and year digit groups joined by `/` |
| IsoDate.BrFormatShape | src/main.rs:185-187 | the rendering is ten characters with `/` at positions 3 and 6, and its groups read back as day, month and year |
| IsoDate.February30AcceptedAsWritten | src/main.rs:179-181 | as written, `1990-02-30` is accepted as day 30 of month 2 |
| IsoDate.February30RejectedCorrected | src/main.rs:179-181 | with the calendar test, `1990-02-30` fails with the invalid-date message |
| IsoDate.CorrectedAcceptsCalendarDates | src/main.rs:179-181 | with the calendar test, a string parses exactly when it parses as written and its day exists in its month |
| Hook.ReadBool | src/main.rs:25 | the `ok` field reads as true exactly when it is neither nil nor false, so a missing `ok` reads as false |
| Hook.ReadOptString | src/main.rs:26-27 | a `value` or `error` field is present exactly when it holds a string or a number, and then carries its text |
| Hook.CallTransform | src/main.rs:13-37 | an absent hook or a non-table return passes the input through as success with no error; a table's success is the truth of its `ok` field, and its value and error are the text of those fields, present exactly when they hold a string or a number |
| DefaultRules.TableRet | src/main.rs:137-139 | the table a rule returns reads back, under mlua's conversions, as ok exactly on acceptance, with the value on acceptance and the message on rejection |
| DefaultRules.TableRetReadBack | src/main.rs:137-139 | the store reads a rule's table back as exactly the rule's decision: success with its value, or failure with its message |
| DefaultRules.OnAdd | src/main.rs:190-213 | whatever is accepted is stored exactly as typed; a `cpf_` key is accepted exactly on a valid CPF, a `data_` key exactly on a parsing date, and any other key always; `OnAddCpfAsWritten` and `OnAddDate` give the messages |
| DefaultRules.OnGet | src/main.rs:215-229 | only `cpf_` and `data_` values can be refused: a `cpf_` value renders exactly when it is 11 digits, a `data_` value exactly when it parses, any other value is shown unchanged; `OnGetCpf` and `DateRoundTrip` give the renderings |
| DefaultRules.OnAddCpfAsWritten | src/main.rs:190-202 | on a `cpf_` key, ADD succeeds exactly on 11 digits with agreeing check digits and stores the input unchanged; failures come in order (non-digit, length, check digit), each with its own message |
| DefaultRules.OnAddCpfCorrected | src/main.rs:159-165 | with the intended repeated-digit test, a `cpf_` value is accepted exactly when it has 11 digits, not all equal, and agreeing check digits |
| DefaultRules.OnGetCpf | src/main.rs:215-220 | on a `cpf_` key, rendering succeeds exactly on 11 stored digits; the output has separators at positions 4, 8 and 12, and removing them gives back the stored value; otherwise it fails with the corrupted-value message |
| DefaultRules.DateKeyIsNotCpfKey | src/main.rs:191-203 | the `cpf_` and `data_` branches of the hooks are disjoint: a `data_` key never starts with `cpf_` |
| DefaultRules.OnAddDate | src/main.rs:203-209 | on a `data_` key, ADD succeeds exactly when the date parses, stores the input itself, and on failure prefixes the parse message |
| DefaultRules.OnGetDate | src/main.rs:221-226 | on a `data_` key, GET renders exactly when the stored value parses, shows its `DD/MM/YYYY` rendering, and otherwise refuses with `Valor de data inválido: ` followed by the parse message |
| DefaultRules.DateRoundTrip | src/main.rs:221-226 | on a `data_` key, rendering what ADD stored gives `DD/MM/YYYY` built from the input's own digit groups |
| DefaultRules.PassThrough | src/main.rs:211-228 | keys outside both prefixes are accepted by both hooks with the value unchanged |
| DefaultRules.AddedValuesRender | src/main.rs:190-228 | every value ADD accepts is rendered by GET without error, so the corrupted-state branches are unreachable through ADD |
| DefaultRules.RepdigitAcceptedAsWritten | src/main.rs:142-165 | as written, every 11-character repeated-digit CPF is accepted and stored |
| DefaultRules.RepdigitRejectedCorrected | src/main.rs:142-165 | with the intended repeated-digit test, every repeated-digit CPF is refused with the check-digit message |
| DefaultRules.ValidCpfCheckDigits | src/main.rs:146-164 | `52998224725` consists of digits and its check digits agree |
| DefaultRules.ValidCpfExample | src/main.rs:190-220 | in both editions, `52998224725` under `cpf_x` is accepted unchanged and renders as `529.982.247-25` |
| Store.Add | src/main.rs:78-86 | ADD either stores or is rejected; a rejection leaves the store unchanged; only the added key can change or appear |
| Store.AddWrites | src/main.rs:79-86 | ADD stores exactly when the hook reports success, binding the key to the hook's value or else to the original value; a failure reports the hook's message or `motivo desconhecido` |
| Store.AddIdempotent | src/main.rs:79-86 | repeating an ADD of the same key and value yields the same store and response |
| Store.Render | src/main.rs:95-102 | rendering a stored value either shows text or reports a formatting failure |
| Store.RenderShows | src/main.rs:95-102 | GET shows exactly when the hook answers ok, showing the hook's value or else the raw stored value; a failure reports the hook's message or `motivo desconhecido` |
| Store.FallbackApplies | src/main.rs:106 | GET retries exactly the keys that start with `cpf` and do not continue with `_` |
| Store.AltKey | src/main.rs:106-107 | the alternate key starts with `cpf_`, differs from the key, and keeps everything after `cpf` |
| Store.Get | src/main.rs:93-120 | GET reports not-found exactly when the key is absent and no fallback alternate key is present, and a hit renders the stored value under its own key |
| Store.GetOnMiss | src/main.rs:104-120 | on a miss, only `cpf` keys not followed by `_` fall back; the alternate key is rendered under its own name and can never fall back again; every other miss is not-found |
| Store.Step | src/main.rs:60-126 | only an ADD line can change the store; a GET line answers what GET answers; the loop stops exactly on `exit`/`quit` |
| Store.StepDispatch | src/main.rs:67-122 | a line parsed as ADD runs ADD, and a line parsed as GET runs GET on the unchanged store |
| Store.EmbeddedAdd | src/main.rs:79-86 | with the embedded rules, ADD stores the rule's value or reports the rule's message |
| Store.EmbeddedRender | src/main.rs:96-102 | with the embedded rules, GET shows the rule's rendering or reports the rule's message |
| Store.CpfStoreRoundTrip | src/main.rs:79-99 | a CPF that ADD accepts is stored as given and GET shows it in `XXX.XXX.XXX-XX` form |
| Store.DateStoreRoundTrip | src/main.rs:79-99 | a date that ADD accepts is stored as given and GET shows `DD/MM/YYYY` from the same digits |
| Store.PassThroughStoreRoundTrip | src/main.rs:79-99 | outside both prefixes, GET after ADD shows exactly the added value |
| Store.NoHooksRoundTrip | src/main.rs:33-35 | with no hooks defined, ADD binds the key to the value and GET shows it unchanged |
| Store.CpfFallbackRoundTrip | src/main.rs:104-117 | a CPF stored under `cpf_X` is shown by `GET cpfX` when `cpfX` is absent |
| Console.TrimStart | src/main.rs:60 | the result is a suffix of the line, everything removed is whitespace, and it does not start with whitespace |
| Console.TrimEnd | src/main.rs:60 | the result is a prefix of the line, everything removed is whitespace, and it does not end with whitespace |
| Console.TrimKeepsTrimmed | src/main.rs:60 | a line with no whitespace at either end is unchanged by trimming |
| Console.SplitOnce | src/main.rs:65 | cutting at the first space gives a space-free head and, when there is a space, the rest, such that head, space and rest rebuild the input |
| Console.SplitOnceUnique | src/main.rs:65 | any split into a space-free head, a space and a rest is the one the cut finds |
| Console.SplitN3 | src/main.rs:65 | `splitn(3, ' ')` gives one to three pieces that, joined by single spaces, rebuild the line; all pieces but the last are space-free, and so is the last when there are fewer than three |
| Console.ParseLine | src/main.rs:60-92 | a line is blank exactly when it trims to nothing, and a parsed ADD or GET key holds no space; `QuitExactly`, `ParseLineOutcomes`, `ParsedAddShape`, `ParsedGetShape`, `ParseAddLine` and `ParseGetLine` characterise the commands |
| Console.ParsedAddShape | src/main.rs:65-76 | a parsed ADD comes from a trimmed line `<word> <key> <value>` whose word upper-cases to `ADD` and whose key holds no space |
| Console.ParsedGetShape | src/main.rs:65-92 | a parsed GET comes from a trimmed line `<word> <key>`, possibly followed by a space and ignored text, whose word upper-cases to `GET` and whose key holds no space |
| Console.ParseLineOutcomes | src/main.rs:64-125 | on a line that is neither blank nor `exit`/`quit`, ADD needs three `splitn` pieces and GET two, taking key and value from those pieces; `ADD` with fewer pieces and `GET` alone are usage errors, and any other command word is invalid (all in both directions) |
| Console.ParseAddLine | src/main.rs:65-76 | conversely, such a line parses to ADD with that key and value, whatever the case of the word |
| Console.ParseGetLine | src/main.rs:88-92 | a line `<word> <key>` whose word upper-cases to `GET` parses to GET of that key |
| Console.QuitExactly | src/main.rs:61-62 | the loop stops exactly on a trimmed line equal to `exit` or `quit`, ignoring ASCII case |
| Scenarios.ValidCpfSession | src/main.rs:64-99 | `ADD cpf_x 52998224725` answers OK, and `GET cpf_x` then shows `529.982.247-25` |
| Scenarios.FallbackSession | src/main.rs:104-117 | after that ADD, `GET cpfx` shows `529.982.247-25` through the fallback |
| Scenarios.RepdigitSession | src/main.rs:142-165 | as written, `ADD cpf_x 11111111111` answers OK; the corrected edition refuses it |
| Scenarios.ImpossibleDateSession | src/main.rs:173-183 | as written, `ADD data_nasc 1990-02-30` answers OK; the corrected edition refuses it with the invalid-date message |
| Scenarios.DateSession | src/main.rs:203-226 | `ADD data_nasc 1990-02-14` answers OK, and `GET data_nasc` then shows `14/02/1990` |
| Scenarios.PassThroughSession | src/main.rs:211-228 | `ADD other hello world` answers OK, and `GET other` then shows `hello world` |

## Left out

- The console loop's I/O is not modelled: reading stdin, the prompt, flushing, and the printed text of each response. Responses are values of `Store.Response` instead. A failed read ends the loop, and end of input reads as a blank line, so the loop then keeps skipping blank lines.
- Loading `extensions.lua` from disk is not modelled, nor the fallback to the embedded rules when that file is missing. Running Lua code is not modelled either, and a Lua syntax error is fatal at startup. A user's rule source is represented only by the replies of its hooks (`Store.Engine`).
- Lua runtime errors and mlua conversion errors propagated with `?` are not modelled. They end the process. Examples are a hook that raises, or a global `on_add` that is not a function.
- Hooks are modelled as pure functions of key and value. A user-supplied Lua hook that keeps state between calls is outside the model. The embedded hooks keep none.
- `call_lua_transform` is modelled with an optional value, but the store always passes a value. The embedded hooks are therefore modelled only for a present value.
- Lua converts numbers to text in the `value` and `error` fields. This conversion is not computed: `Hook.LuaValue.Number` carries the resulting text.
- A Lua string that is not valid UTF-8 fails conversion to a Rust `String`. This is not modelled, because Dafny strings are sequences of characters.
- `os.time` is not modelled. The model's as-written edition assumes it never rejects a four-digit year with hour 12: `mktime` normalises out-of-range days, and with a 64-bit `time_t` every such date is representable.
- Locale effects on Lua's `%d` are not modelled: digits are ASCII `0`..`9`.
- Console.UpperAscii: upper-cases ASCII letters only, not full Unicode. The result is only compared with `ADD` and `GET`. No non-ASCII character upper-cases to a string made only of the letters A, D, E, G and T: the few whose upper case contains one of them (U+1E97, U+1E9A, U+FB05, U+FB06) also yield another character. So both give the same verdict.
- Iteration order of the Rust `HashMap` is not modelled. No operation observes it.

## Findings

| source | as written | input that shows it | evidently intended | confidence | as-written member | corrected member |
|---|---|---|---|---|---|---|
| src/main.rs:142-144 | In Lua patterns a back-reference `%1` takes no quantifier, so in `^(%d)%1+$` the `+` is a literal plus sign. The pattern matches only strings like `11+`, so `cpf_all_same` is false for every 11-digit CPF. | `ADD cpf_x 11111111111` answers OK: every repeated-digit CPF satisfies both check-digit equations. | Reject CPFs whose 11 digits are all the same. | high (not executed) | DefaultRules.RepdigitAcceptedAsWritten | DefaultRules.RepdigitRejectedCorrected |
| src/main.rs:179-181 | `os.time` normalises out-of-range fields like `mktime` (February 30 becomes March 2) and never yields nil for these fields, so the `data inválida` branch is unreachable. | `ADD data_nasc 1990-02-30` answers OK. | Reject days that do not exist in their month. | high (not executed) | IsoDate.February30AcceptedAsWritten | IsoDate.CorrectedAcceptsCalendarDates |

=== FILE: common.dfy ===
/** Small datatypes shared by the rest of the model. */
module Common {

  /** An optional value; models Rust's `Option` and a Lua value that may be nil. */
  datatype Option<+T> = None | Some(value: T) {

    /** The wrapped value, or `default` when absent (Rust's `unwrap_or`). */
    function GetOr(default: T): T {
      match this
      case Some(v) => v
      case None => default
    }
  }

  /** A computation that either yields a value or fails with a message. */
  datatype Result<+T> = Success(value: T) | Failure(error: string)

  /**
   * Which reading of the embedded rule set: `AsWritten` follows the code,
   * where the repeated-digit pattern and the `os.time` step never reject
   * anything; `Corrected` rejects repeated-digit CPFs and impossible
   * calendar dates.
   */
  datatype Edition = AsWritten | Corrected
}

=== FILE: console.dfy ===
/**
 * How one console line becomes a command: `trim`, the whole-line
 * `exit`/`quit` test (ASCII case-insensitive), `splitn(3, ' ')`, and the
 * upper-cased command word.
 */
module Console {
  import opened Common
  import Text

  /** Unicode White_Space, the set Rust's `char::is_whitespace` and `str::trim` use. */
  predicate IsWhitespace(c: char) {
    || c == ' ' || '\t' <= c <= '\r'
    || c == '\U{85}' || c == '\U{A0}' || c == '\U{1680}'
    || '\U{2000}' <= c <= '\U{200A}'
    || c == '\U{2028}' || c == '\U{2029}' || c == '\U{202F}' || c == '\U{205F}' || c == '\U{3000}'
  }

  /** `s` without its leading whitespace. */
  function TrimStart(s: string): (r: string)
    ensures |r| <= |s| && r == s[|s| - |r|..]
    ensures forall i :: 0 <= i < |s| - |r| ==> IsWhitespace(s[i])
    ensures |r| > 0 ==> !IsWhitespace(r[0])
  {
    if |s| > 0 && IsWhitespace(s[0]) then TrimStart(s[1..]) else s
  }

  /** `s` without its trailing whitespace. */
  function TrimEnd(s: string): (r: string)
    ensures |r| <= |s| && r == s[..|r|]
    ensures forall i :: |r| <= i < |s| ==> IsWhitespace(s[i])
    ensures |r| > 0 ==> !IsWhitespace(r[|r| - 1])
  {
    if |s| > 0 && IsWhitespace(s[|s| - 1]) then TrimEnd(s[..|s| - 1]) else s
  }

  /** `str::trim`. */
  function Trim(s: string): string {
    TrimEnd(TrimStart(s))
  }

  /** A line that neither starts nor ends with whitespace is left alone by trimming. */
  lemma TrimKeepsTrimmed(s: string)
    requires |s| > 0 && !IsWhitespace(s[0]) && !IsWhitespace(s[|s| - 1])
    ensures Trim(s) == s
  {
  }

  function AsciiLower(c: char): char {
    if 'A' <= c <= 'Z' then (c as int - 'A' as int + 'a' as int) as char else c
  }

  function AsciiUpper(c: char): char {
    if 'a' <= c <= 'z' then (c as int - 'a' as int + 'A' as int) as char else c
  }

  /** `str::eq_ignore_ascii_case`. */
  predicate EqIgnoreAsciiCase(a: string, b: string) {
    |a| == |b| && forall i :: 0 <= i < |a| ==> AsciiLower(a[i]) == AsciiLower(b[i])
  }

  /** Upper-casing of the command word, as far as comparing it with `ADD` and `GET` can tell. */
  function UpperAscii(s: string): (r: string)
    ensures |r| == |s|
    ensures forall i :: 0 <= i < |s| ==> r[i] == AsciiUpper(s[i])
  {
    seq(|s|, i requires 0 <= i < |s| => AsciiUpper(s[i]))
  }

  /** The pieces joined back with single spaces. */
  function JoinSpaces(parts: seq<string>): string {
    if |parts| == 0 then ""
    else if |parts| == 1 then parts[0]
    else parts[0] + " " + JoinSpaces(parts[1..])
  }

  /** Cutting at the first space: the text before it, and the rest after it if there is a space at all. */
  function SplitOnce(s: string): (r: (string, Option<string>))
    ensures ' ' !in r.0
    ensures r.1.None? ==> r.0 == s
    ensures r.1.Some? ==> s == r.0 + " " + r.1.value
  {
    if |s| == 0 then ("", None)
    else if s[0] == ' ' then ("", Some(s[1..]))
    else
      var (head, tail) := SplitOnce(s[1..]);
      ([s[0]] + head, tail)
  }

  /** Any way of writing `s` as a space-free part, a space, and the rest is the one `SplitOnce` finds. */
  lemma {:induction false} SplitOnceUnique(s: string, a: string, b: string)
    requires s == a + " " + b && ' ' !in a
    ensures SplitOnce(s) == (a, Some(b))
    decreases |a|
  {
    if |a| == 0 {
      assert s[1..] == b;
    } else {
      assert a[0] in a;
      assert s[1..] == a[1..] + " " + b;
      SplitOnceUnique(s[1..], a[1..], b);
      assert [s[0]] + a[1..] == a;
    }
  }

  /**
   * `splitn(3, ' ')`: at most three pieces, which joined back with single
   * spaces give the line; every piece but the last is free of spaces, and
   * so is the last one when there are fewer than three.
   */
  function SplitN3(s: string): (parts: seq<string>)
    ensures 1 <= |parts| <= 3
    ensures JoinSpaces(parts) == s
    ensures forall i :: 0 <= i < |parts| - 1 ==> ' ' !in parts[i]
    ensures |parts| < 3 ==> ' ' !in parts[|parts| - 1]
  {
    var (first, rest1) := SplitOnce(s);
    if rest1.None? then [first]
    else
      var (second, rest2) := SplitOnce(rest1.value);
      if rest2.None? then [first, second]
      else
        var parts := [first, second, rest2.value];
        assert parts[1..] == [second, rest2.value] && parts[1..][1..] == [rest2.value];
        assert JoinSpaces(parts[1..]) == second + " " + rest2.value;
        parts
  }

  datatype Command =
    | Blank                              // nothing but whitespace
    | Quit                               // `exit` or `quit`
    | AddCommand(key: string, value: string)
    | GetCommand(key: string)
    | AddUsage                           // `ADD` with a missing key or value
    | GetUsage                           // `GET` with a missing key
    | Invalid                            // any other command word

  /** The parse at the head of each turn of the console loop. */
  function ParseLine(line: string): (c: Command)
    ensures c == Blank <==> |Trim(line)| == 0
    ensures c.AddCommand? || c.GetCommand? ==> ' ' !in c.key
  {
    var t := Trim(line);
    if |t| == 0 then Blank
    else if EqIgnoreAsciiCase(t, "exit") || EqIgnoreAsciiCase(t, "quit") then Quit
    else
      var parts := SplitN3(t);
      var cmd := UpperAscii(parts[0]);
      if cmd == "ADD" then
        if |parts| < 3 then AddUsage else AddCommand(parts[1], parts[2])
      else if cmd == "GET" then
        if |parts| < 2 then GetUsage else GetCommand(parts[1])
      else Invalid
  }

  /**
   * A parsed ADD comes from a trimmed line of the form
   * `<word> <key> <value>` whose word upper-cases to `ADD` and whose word
   * and key hold no space; the value keeps its inner spaces.
   */
  lemma ParsedAddShape(line: string)
    requires ParseLine(line).AddCommand?
    ensures var t, c := Trim(line), ParseLine(line);
      exists w :: t == w + " " + c.key + " " + c.value && UpperAscii(w) == "ADD" && ' ' !in w && ' ' !in c.key
  {
    var t := Trim(line);
    var parts := SplitN3(t);
    assert t == parts[0] + " " + parts[1] + " " + parts[2];
  }

  /**
   * A parsed GET comes from a trimmed line `<word> <key>`, possibly
   * followed by a space and further text that is ignored, whose word
   * upper-cases to `GET` and whose word and key hold no space.
   */
  lemma ParsedGetShape(line: string)
    requires ParseLine(line).GetCommand?
    ensures var t, c := Trim(line), ParseLine(line);
      exists w :: && UpperAscii(w) == "GET" && ' ' !in w && ' ' !in c.key
                  && (t == w + " " + c.key || Text.StartsWith(t, w + " " + c.key + " "))
  {
  }

  /**
   * Every outcome of a line that is neither blank nor `exit`/`quit`, in
   * terms of its `splitn(3, ' ')` pieces: ADD needs three pieces and GET
   * two, one fewer is a usage error, and any other command word is invalid.
   */
  lemma ParseLineOutcomes(line: string)
    ensures var t := Trim(line);
      var parts, c := SplitN3(t), ParseLine(line);
      var command := |t| > 0 && !EqIgnoreAsciiCase(t, "exit") && !EqIgnoreAsciiCase(t, "quit");
      && (c.AddCommand? <==> command && UpperAscii(parts[0]) == "ADD" && |parts| == 3)
      && (c.AddCommand? ==> c.key == parts[1] && c.value == parts[2])
      && (c == AddUsage <==> command && UpperAscii(parts[0]) == "ADD" && |parts| < 3)
      && (c.GetCommand? <==> command && UpperAscii(parts[0]) == "GET" && |parts| >= 2)
      && (c.GetCommand? ==> c.key == parts[1])
      && (c == GetUsage <==> command && UpperAscii(parts[0]) == "GET" && |parts| == 1)
      && (c == Invalid <==> command && UpperAscii(parts[0]) != "ADD" && UpperAscii(parts[0]) != "GET")
  {
  }

  /** Conversely, any such line parses to that ADD, whatever the case of the command word. */
  lemma ParseAddLine(line: string, w: string, key: string, value: string)
    requires line == w + " " + key + " " + value
    requires UpperAscii(w) == "ADD" && ' ' !in key
    requires |value| > 0 && !IsWhitespace(value[|value| - 1])
    ensures ParseLine(line) == AddCommand(key, value)
  {
    assert w[0] == 'A' || w[0] == 'a';
    TrimKeepsTrimmed(line);
    assert ' ' !in w;
    SplitOnceUnique(line, w, key + " " + value);
    SplitOnceUnique(key + " " + value, key, value);
  }

  /** A `<word> <key>` line whose word upper-cases to `GET` parses to that GET. */
  lemma ParseGetLine(line: string, w: string, key: string)
    requires line == w + " " + key
    requires UpperAscii(w) == "GET" && ' ' !in key
    requires |key| > 0 && !IsWhitespace(key[|key| - 1])
    ensures ParseLine(line) == GetCommand(key)
  {
    assert w[0] == 'G' || w[0] == 'g';
    TrimKeepsTrimmed(line);
    assert ' ' !in w;
    SplitOnceUnique(line, w, key);
  }

  /** The console stops exactly on a line that is `exit` or `quit`, in any ASCII case, after trimming. */
  lemma QuitExactly(line: string)
    ensures ParseLine(line) == Quit <==> EqIgnoreAsciiCase(Trim(line), "exit") || EqIgnoreAsciiCase(Trim(line), "quit")
  {
  }
}

=== FILE: cpf.dfy ===
/**
 * The Brazilian CPF rules of the embedded rule set: the weighted-sum
 * mod-11 check digits (`cpf_calc_digit`), the repeated-digit test
 * (`cpf_all_same`), the overall validity test (`cpf_is_valid`) and the
 * `XXX.XXX.XXX-XX` rendering (`cpf_format`).
 */
module Cpf {
  import opened Common
  import opened Text

  /**
   * The sum `cpf_calc_digit` accumulates over its first `i` iterations:
   * digit `j` (1-based) is weighted `len + 2 - j`, so the weights run
   * 10..2 for `len = 9` and 11..2 for `len = 10`.
   */
  function WeightedSum(cpf: string, len: nat, i: nat): nat
    requires i <= len && DigitPrefix(cpf, len)
  {
    if i == 0 then 0
    else WeightedSum(cpf, len, i - 1) + DigitValue(cpf[i - 1]) * (len + 2 - i)
  }

  /** The check digit over the first `len` digits: `11 - sum % 11`, with 10 and 11 mapped to 0. */
  function CheckDigit(cpf: string, len: nat): (dv: nat)
    requires DigitPrefix(cpf, len)
    ensures dv <= 9
  {
    var dv := 11 - WeightedSum(cpf, len, len) % 11;
    if dv >= 10 then 0 else dv
  }

  /**
   * An independent reading of the check digit: it is the one digit that
   * makes the weighted sum plus the digit a multiple of 11, except when
   * that digit would have to be 10, in which case it is 0.
   */
  lemma CheckDigitBalancesSum(cpf: string, len: nat, r: nat)
    requires DigitPrefix(cpf, len) && r <= 9
    ensures var s := WeightedSum(cpf, len, len);
            r == CheckDigit(cpf, len) <==> (s + r) % 11 == 0 || (s % 11 == 1 && r == 0)
  {
    var s := WeightedSum(cpf, len, len);
    var m := s % 11;
    assert s == (s / 11) * 11 + m;
    assert (s + r) % 11 == (m + r) % 11 by {
      assert s + r == (s / 11) * 11 + (m + r);
    }
  }

  /** `cpf_calc_digit` as written: a loop over positions 1..len with weight `len + 1 - i + 1`. */
  method CalcDigit(cpf: string, len: nat) returns (dv: nat)
    requires DigitPrefix(cpf, len)
    ensures dv <= 9
    ensures dv == CheckDigit(cpf, len)
  {
    var sum := 0;
    var weight := len + 1;
    var i := 1;
    while i <= len
      invariant 1 <= i <= len + 1
      invariant sum == WeightedSum(cpf, len, i - 1)
    {
      var d := DigitValue(cpf[i - 1]);
      sum := sum + d * (weight - i + 1);
      i := i + 1;
    }
    var mod := sum % 11;
    dv := 11 - mod;
    if dv >= 10 {
      dv := 0;
    }
  }

  /**
   * What `cpf:match("^(%d)%1+$") ~= nil` computes. A back-reference `%1`
   * takes no quantifier in Lua patterns, so the `+` is a literal plus
   * sign: the pattern matches exactly a digit, the same digit again, and
   * `+`. It therefore never matches a string of digits.
   */
  function AllSameAsWritten(s: string): (b: bool)
    ensures b ==> |s| == 3 && s[2] == '+'
    ensures b ==> !AllDigits(s)
  {
    |s| == 3 && IsDigit(s[0]) && s[1] == s[0] && s[2] == '+'
  }

  /** What `cpf_all_same` is evidently meant to test: a digit repeated two or more times. */
  predicate Repdigit(s: string) {
    2 <= |s| && IsDigit(s[0]) && forall i :: 0 <= i < |s| ==> s[i] == s[0]
  }

  /** Both check digits of an 11-digit string agree with its 10th and 11th digits. */
  predicate CheckDigitsAgree(cpf: string)
    requires |cpf| == 11 && AllDigits(cpf)
  {
    CheckDigit(cpf, 9) == DigitValue(cpf[9]) && CheckDigit(cpf, 10) == DigitValue(cpf[10])
  }

  /**
   * `cpf_is_valid`: exactly 11 digits, not rejected by the repeated-digit
   * test, and both check digits agree. The edition selects the
   * repeated-digit test: the pattern as written, or the intended one.
   */
  function IsValid(cpf: string, ed: Edition): (b: bool)
    ensures b ==> |cpf| == 11 && AllDigits(cpf) && CheckDigitsAgree(cpf)
    ensures b && ed.Corrected? ==> !Repdigit(cpf)
  {
    && |cpf| == 11 && AllDigits(cpf)
    && !(if ed.Corrected? then Repdigit(cpf) else AllSameAsWritten(cpf))
    && CheckDigitsAgree(cpf)
  }

  /** The code as written accepts exactly the 11-digit strings whose check digits agree. */
  lemma IsValidAsWritten(cpf: string)
    ensures IsValid(cpf, AsWritten) <==> |cpf| == 11 && AllDigits(cpf) && CheckDigitsAgree(cpf)
  {
  }

  /** The intended test additionally rejects repeated-digit strings. */
  lemma IsValidCorrected(cpf: string)
    ensures IsValid(cpf, Corrected) <==> IsValid(cpf, AsWritten) && !Repdigit(cpf)
  {
  }

  function WeightTotal(len: nat, i: nat): nat
    requires i <= len
  {
    if i == 0 then 0 else WeightTotal(len, i - 1) + (len + 2 - i)
  }

  lemma {:induction false} ConstantWeightedSum(cpf: string, len: nat, i: nat, k: nat)
    requires i <= len && DigitPrefix(cpf, len) && k < 10
    requires forall j :: 0 <= j < len ==> cpf[j] == DigitChar(k)
    ensures WeightedSum(cpf, len, i) == k * WeightTotal(len, i)
  {
    if i > 0 {
      ConstantWeightedSum(cpf, len, i - 1, k);
      calc {
        WeightedSum(cpf, len, i);
        k * WeightTotal(len, i - 1) + k * (len + 2 - i);
        k * WeightTotal(len, i);
      }
    }
  }

  /**
   * Every 11-character repeated-digit string satisfies both check-digit
   * equations: the weights sum to 54 and 65, both congruent to -1 modulo
   * 11, so each check digit equals the repeated digit.
   */
  lemma RepdigitsPassCheckDigits(cpf: string)
    requires |cpf| == 11 && Repdigit(cpf)
    ensures AllDigits(cpf) && CheckDigitsAgree(cpf)
  {
    var k := DigitValue(cpf[0]);
    DigitCharOfValue(cpf[0]);
    ConstantWeightedSum(cpf, 9, 9, k);
    ConstantWeightedSum(cpf, 10, 10, k);
    assert WeightTotal(9, 9) == 54;
    assert WeightTotal(10, 10) == 65;
    assert k == 0 || k == 1 || k == 2 || k == 3 || k == 4 || k == 5 || k == 6 || k == 7 || k == 8 || k == 9;
  }

  /** Lua's `s:sub(i, j)` for positive positions: 1-based, inclusive, clamped to the string. */
  function LuaSub(s: string, i: nat, j: nat): (r: string)
    requires 1 <= i
    ensures |r| <= |s|
  {
    var hi := if j <= |s| then j else |s|;
    if i > hi then [] else s[i - 1..hi]
  }

  /** `cpf_format`: groups of three, three, three and two characters joined by `.`, `.` and `-`. */
  function Format(cpf: string): (r: string)
    ensures |cpf| == 11 ==> |r| == 14 && r[3] == '.' && r[7] == '.' && r[11] == '-'
  {
    LuaSub(cpf, 1, 3) + "." + LuaSub(cpf, 4, 6) + "." + LuaSub(cpf, 7, 9) + "-" + LuaSub(cpf, 10, 11)
  }

  /** `s` with every `.` and `-` removed. */
  function RemoveSeparators(s: string): (r: string)
    ensures |r| <= |s|
  {
    if |s| == 0 then []
    else (if s[0] == '.' || s[0] == '-' then [] else [s[0]]) + RemoveSeparators(s[1..])
  }

  lemma {:induction false} RemoveSeparatorsAppend(a: string, b: string)
    ensures RemoveSeparators(a + b) == RemoveSeparators(a) + RemoveSeparators(b)
    decreases |a|
  {
    if |a| > 0 {
      assert (a + b)[1..] == a[1..] + b;
      RemoveSeparatorsAppend(a[1..], b);
    } else {
      assert a + b == b;
    }
  }

  lemma {:induction false} RemoveSeparatorsOfDigits(s: string)
    requires AllDigits(s)
    ensures RemoveSeparators(s) == s
    decreases |s|
  {
    if |s| > 0 {
      RemoveSeparatorsOfDigits(s[1..]);
    }
  }

  /**
   * The rendering of an 11-character string is 14 characters long, with
   * `.` at positions 4 and 8 and `-` at position 12 (1-based), and the
   * input's characters in order everywhere else.
   */
  lemma FormatShape(cpf: string)
    requires |cpf| == 11
    ensures var r := Format(cpf);
      && |r| == 14 && r[3] == '.' && r[7] == '.' && r[11] == '-'
      && r[..3] == cpf[..3] && r[4..7] == cpf[3..6] && r[8..11] == cpf[6..9] && r[12..] == cpf[9..]
  {
  }

  /** Removing the separators from the rendering of 11 digits gives the digits back. */
  lemma FormatThenStrip(cpf: string)
    requires |cpf| == 11 && AllDigits(cpf)
    ensures RemoveSeparators(Format(cpf)) == cpf
  {
    var a, b, c, d := cpf[..3], cpf[3..6], cpf[6..9], cpf[9..];
    assert Format(cpf) == a + "." + b + "." + c + "-" + d;
    RemoveSeparatorsAppend(a + "." + b + "." + c + "-", d);
    RemoveSeparatorsAppend(a + "." + b + "." + c, "-");
    RemoveSeparatorsAppend(a + "." + b + ".", c);
    RemoveSeparatorsAppend(a + "." + b, ".");
    RemoveSeparatorsAppend(a + ".", b);
    RemoveSeparatorsAppend(a, ".");
    RemoveSeparatorsOfDigits(a);
    RemoveSeparatorsOfDigits(b);
    RemoveSeparatorsOfDigits(c);
    RemoveSeparatorsOfDigits(d);
    assert a + b + c + d == cpf;
  }
}

=== FILE: hook.dfy ===
/**
 * The contract between the store and the rule engine: what a hook can
 * hand back, and how `call_lua_transform` folds that into a
 * `TransformResult`. The Lua interpreter itself is replaced by the
 * `HookReply` datatype describing what the hook produced.
 */
module Hook {
  import opened Common

  /**
   * A Lua value as the store's field reads tell them apart. `Number`
   * carries the text Lua converts the number to; `Other` is any table,
   * function or other value.
   */
  datatype LuaValue = Nil | Boolean(b: bool) | Str(s: string) | Number(text: string) | Other

  /** What invoking a named hook produced. */
  datatype HookReply =
    | Absent                                                 // no global function of that name
    | NonTable                                               // the hook returned something other than a table
    | Table(ok: LuaValue, value: LuaValue, error: LuaValue)  // the `ok`, `value` and `error` fields of the returned table

  /** The result the store acts on. When `ok` is false, `value` is ignored. */
  datatype TransformResult = TransformResult(ok: bool, value: Option<string>, error: Option<string>)

  /** Reading a field as a Rust `bool`: Lua truthiness, so only nil and false read as false. */
  function ReadBool(v: LuaValue): (b: bool)
    ensures b <==> v != Nil && v != Boolean(false)
  {
    match v
    case Nil => false
    case Boolean(b) => b
    case _ => true
  }

  /**
   * Reading a field as `Option<String>` with `unwrap_or(None)`: nil is
   * absent, strings and numbers are read as text, and a value that cannot
   * be converted reads as absent instead of failing.
   */
  function ReadOptString(v: LuaValue): (r: Option<string>)
    ensures r.Some? <==> v.Str? || v.Number?
    ensures v.Str? ==> r == Some(v.s)
    ensures v.Number? ==> r == Some(v.text)
  {
    match v
    case Str(s) => Some(s)
    case Number(t) => Some(t)
    case _ => None
  }

  /**
   * `call_lua_transform`: an absent hook or a non-table reply passes the
   * input through as a success; a table is read field by field, a missing
   * `ok` reading as false.
   */
  function CallTransform(reply: HookReply, value: Option<string>): (tr: TransformResult)
    ensures !reply.Table? ==> tr.ok && tr.value == value && tr.error == None
    ensures reply.Table? ==> (tr.ok <==> reply.ok != Nil && reply.ok != Boolean(false))
    ensures reply.Table? && reply.ok == Nil ==> !tr.ok
    ensures reply.Table? ==> tr.value == ReadOptString(reply.value) && tr.error == ReadOptString(reply.error)
  {
    match reply
    case Absent => TransformResult(true, value, None)
    case NonTable => TransformResult(true, value, None)
    case Table(ok, v, e) => TransformResult(ReadBool(ok), ReadOptString(v), ReadOptString(e))
  }
}

=== FILE: isodate.dfy ===
/**
 * The ISO 8601 calendar dates of the embedded rule set: `parse_iso_date`
 * (extended complete form `YYYY-MM-DD`, section 4.1.2.2 of ISO 8601:2004),
 * its re-serialisation with `%04d-%02d-%02d`, and `br_format_date`
 * (`DD/MM/YYYY`).
 */
module IsoDate {
  import opened Common
  import opened Text

  datatype Date = Date(year: nat, month: nat, day: nat)

  const FormatError: string := "formato inválido (YYYY-MM-DD)"
  const MonthError: string := "mês inválido"
  const DayError: string := "dia inválido"
  const CalendarError: string := "data inválida"

  /** The anchored Lua pattern `^(%d%d%d%d)%-(%d%d)%-(%d%d)$`. */
  predicate IsoShape(s: string) {
    && |s| == 10
    && AllDigits(s[0..4]) && s[4] == '-'
    && AllDigits(s[5..7]) && s[7] == '-'
    && AllDigits(s[8..10])
  }

  function YearField(s: string): nat
    requires IsoShape(s)
  {
    DecimalValue(s[0..4])
  }

  function MonthField(s: string): nat
    requires IsoShape(s)
  {
    DecimalValue(s[5..7])
  }

  function DayField(s: string): nat
    requires IsoShape(s)
  {
    DecimalValue(s[8..10])
  }

  /** Leap years of the proleptic Gregorian calendar. */
  predicate IsLeapYear(y: nat) {
    y % 4 == 0 && (y % 100 != 0 || y % 400 == 0)
  }

  function DaysInMonth(y: nat, m: nat): (n: nat)
    requires 1 <= m <= 12
    ensures 28 <= n <= 31
  {
    if m == 2 then (if IsLeapYear(y) then 29 else 28)
    else if m == 4 || m == 6 || m == 9 || m == 11 then 30
    else 31
  }

  /**
   * `parse_iso_date`. The checks run in order: shape, month range, day
   * range, then the `os.time` step. As written that step never fails:
   * `os.time` normalises out-of-range fields the way `mktime` does
   * (February 30 becomes March 2) and, for four-digit years, always
   * yields a number. The corrected edition replaces it with the calendar test
   * the step is evidently meant to perform.
   */
  function Parse(s: string, ed: Edition): (r: Result<Date>)
    ensures r.Success? <==>
      && IsoShape(s)
      && 1 <= MonthField(s) <= 12 && 1 <= DayField(s) <= 31
      && (ed.Corrected? ==> DayField(s) <= DaysInMonth(YearField(s), MonthField(s)))
    ensures r.Success? ==> r.value == Date(YearField(s), MonthField(s), DayField(s)) && r.value.year <= 9999
    ensures r.Failure? && !IsoShape(s) ==> r.error == FormatError
  {
    if !IsoShape(s) then Failure(FormatError)
    else
      var y, m, d := YearField(s), MonthField(s), DayField(s);
      if m < 1 || m > 12 then Failure(MonthError)
      else if d < 1 || d > 31 then Failure(DayError)
      else if ed.Corrected? && d > DaysInMonth(y, m) then Failure(CalendarError)
      else Success(Date(y, m, d))
  }

  /** The failures are reported in a fixed order, each with its own message. */
  lemma ParseErrorOrder(s: string, ed: Edition)
    ensures !IsoShape(s) ==> Parse(s, ed) == Failure(FormatError)
    ensures IsoShape(s) && !(1 <= MonthField(s) <= 12) ==> Parse(s, ed) == Failure(MonthError)
    ensures IsoShape(s) && 1 <= MonthField(s) <= 12 && !(1 <= DayField(s) <= 31) ==>
      Parse(s, ed) == Failure(DayError)
    ensures ed.AsWritten? ==> Parse(s, ed) != Failure(CalendarError)
  {
  }

  /** `string.format("%04d-%02d-%02d", year, month, day)`. */
  function IsoFormat(dt: Date): (r: string)
    ensures dt.year <= 9999 && dt.month <= 99 && dt.day <= 99 ==>
      && IsoShape(r)
      && YearField(r) == dt.year && MonthField(r) == dt.month && DayField(r) == dt.day
  {
    var ys, ms, ds := PadDecimal(dt.year, 4), PadDecimal(dt.month, 2), PadDecimal(dt.day, 2);
    var r := ys + "-" + ms + "-" + ds;
    assert Pow10(4) == 10000 && Pow10(2) == 100;
    assert |ys| == 4 && |ms| == 2 && |ds| == 2 ==> r[0..4] == ys && r[5..7] == ms && r[8..10] == ds;
    r
  }

  /** `br_format_date`: `string.format("%02d/%02d/%04d", day, month, year)`. */
  function BrFormat(dt: Date): (r: string)
    ensures dt.year <= 9999 && dt.month <= 99 && dt.day <= 99 ==>
      |r| == 10 && r[2] == '/' && r[5] == '/'
  {
    PadDecimal(dt.day, 2) + "/" + PadDecimal(dt.month, 2) + "/" + PadDecimal(dt.year, 4)
  }

  /** Re-serialising an accepted date gives back the input byte for byte. */
  lemma IsoFormatOfParsed(s: string, ed: Edition)
    requires Parse(s, ed).Success?
    ensures IsoFormat(Parse(s, ed).value) == s
  {
    PadDecimalOfDigits(s[0..4]);
    PadDecimalOfDigits(s[5..7]);
    PadDecimalOfDigits(s[8..10]);
    assert s == s[0..4] + "-" + s[5..7] + "-" + s[8..10];
  }

  /** An accepted date renders as its day, month and year digit groups, in that order, joined by `/`. */
  lemma BrFormatOfParsed(s: string, ed: Edition)
    requires Parse(s, ed).Success?
    ensures BrFormat(Parse(s, ed).value) == s[8..10] + "/" + s[5..7] + "/" + s[0..4]
  {
    PadDecimalOfDigits(s[0..4]);
    PadDecimalOfDigits(s[5..7]);
    PadDecimalOfDigits(s[8..10]);
  }

  /** A date in range, serialised, parses back to itself. */
  lemma ParseOfIsoFormat(dt: Date, ed: Edition)
    requires dt.year <= 9999 && 1 <= dt.month <= 12 && 1 <= dt.day <= 31
    requires ed.Corrected? ==> dt.day <= DaysInMonth(dt.year, dt.month)
    ensures Parse(IsoFormat(dt), ed) == Success(dt)
  {
  }

  /** The rendering of a date in range is `DD/MM/YYYY`: ten characters with `/` at positions 3 and 6. */
  lemma BrFormatShape(dt: Date)
    requires dt.year <= 9999 && dt.month <= 99 && dt.day <= 99
    ensures var r := BrFormat(dt);
      && |r| == 10 && r[2] == '/' && r[5] == '/'
      && AllDigits(r[0..2]) && AllDigits(r[3..5]) && AllDigits(r[6..10])
      && DecimalValue(r[0..2]) == dt.day && DecimalValue(r[3..5]) == dt.month && DecimalValue(r[6..10]) == dt.year
  {
    assert Pow10(4) == 10000 && Pow10(2) == 100;
    var r := BrFormat(dt);
    assert r[0..2] == PadDecimal(dt.day, 2);
    assert r[3..5] == PadDecimal(dt.month, 2);
    assert r[6..10] == PadDecimal(dt.year, 4);
  }

  lemma February30Fields()
    ensures IsoShape("1990-02-30")
    ensures YearField("1990-02-30") == 1990 && MonthField("1990-02-30") == 2 && DayField("1990-02-30") == 30
  {
    var s := "1990-02-30";
    var y, m, d := s[0..4], s[5..7], s[8..10];
    assert y == "1990" && m == "02" && d == "30";
    assert y[..3] == "199" && y[..2] == "19" && y[..1] == "1" && m[..1] == "0" && d[..1] == "3";
    assert DecimalValue("19") == 19;
    assert DecimalValue("199") == 199;
  }

  /** As written, February 30 passes every check. */
  lemma February30AcceptedAsWritten()
    ensures Parse("1990-02-30", AsWritten) == Success(Date(1990, 2, 30))
  {
    February30Fields();
  }

  /** With the calendar test, February 30 is refused with the calendar message. */
  lemma February30RejectedCorrected()
    ensures Parse("1990-02-30", Corrected) == Failure(CalendarError)
  {
    February30Fields();
  }

  /** With the calendar test, exactly the real calendar dates are accepted. */
  lemma CorrectedAcceptsCalendarDates(s: string)
    ensures Parse(s, Corrected).Success? <==> Parse(s, AsWritten).Success? && DayField(s) <= DaysInMonth(YearField(s), MonthField(s))
  {
  }
}

=== FILE: rules.dfy ===
/**
 * The embedded default rule set: the Lua hooks `on_add` and `on_get`,
 * which route by key prefix to the CPF rules (`cpf_`), the ISO date rules
 * (`data_`), or pass the value through.
 */
module DefaultRules {
  import opened Common
  import opened Text
  import Cpf
  import IsoDate
  import opened Hook

  /** The table a rule returns through `table_ret`: success with a value, or failure with a message. */
  datatype Reply = Accept(value: string) | Reject(error: string)

  const CpfNotDigits: string := "CPF deve conter apenas 11 dígitos"
  const CpfWrongLength: string := "CPF deve ter 11 dígitos"
  const CpfBadCheck: string := "CPF inválido (dígito verificador não confere)"
  const CpfStoredInvalid: string := "Valor armazenado de CPF inválido"
  const DateAddPrefix: string := "Data ISO8601 inválida: "
  const DateGetPrefix: string := "Valor de data inválido: "

  predicate IsCpfKey(key: string) {
    StartsWith(key, "cpf_")
  }

  predicate IsDateKey(key: string) {
    StartsWith(key, "data_")
  }

  /** The two reserved prefixes are disjoint: a `data_` key never takes the CPF rule. */
  lemma DateKeyIsNotCpfKey(key: string)
    ensures IsDateKey(key) ==> !IsCpfKey(key)
  {
    if IsDateKey(key) && |key| >= 4 {
      assert key[0] == 'd';
    }
  }

  /** `table_ret(ok, value, error)` as the Lua table it builds. */
  function TableRet(r: Reply): (t: HookReply)
    ensures t.Table? && ReadBool(t.ok) == r.Accept?
    ensures ReadOptString(t.value) == (if r.Accept? then Some(r.value) else None)
    ensures ReadOptString(t.error) == (if r.Reject? then Some(r.error) else None)
  {
    match r
    case Accept(v) => Table(Boolean(true), Str(v), Nil)
    case Reject(e) => Table(Boolean(false), Nil, Str(e))
  }

  /** The store reads back exactly what the rule put into its table. */
  lemma TableRetReadBack(r: Reply, input: Option<string>)
    ensures var tr := CallTransform(TableRet(r), input);
      && (tr.ok <==> r.Accept?)
      && (r.Accept? ==> tr.value == Some(r.value) && tr.error == None)
      && (r.Reject? ==> tr.value == None && tr.error == Some(r.error))
  {
  }

  /**
   * `on_add`. Whatever it accepts is stored exactly as typed: the CPF rule
   * keeps the digits and the date rule's re-serialisation is the identity
   * on accepted input.
   */
  function OnAdd(ed: Edition, key: string, value: string): (r: Reply)
    ensures r.Accept? ==> r.value == value
    ensures !IsCpfKey(key) && !IsDateKey(key) ==> r == Accept(value)
    ensures IsCpfKey(key) ==> (r.Accept? <==> Cpf.IsValid(value, ed))
    ensures IsDateKey(key) ==> (r.Accept? <==> IsoDate.Parse(value, ed).Success?)
  {
    DateKeyIsNotCpfKey(key);
    if IsCpfKey(key) then
      if !(1 <= |value| && AllDigits(value)) then Reject(CpfNotDigits)
      else if |value| != 11 then Reject(CpfWrongLength)
      else if !Cpf.IsValid(value, ed) then Reject(CpfBadCheck)
      else Accept(value)
    else if IsDateKey(key) then
      match IsoDate.Parse(value, ed)
      case Failure(err) => Reject(DateAddPrefix + err)
      case Success(dt) =>
        IsoDate.IsoFormatOfParsed(value, ed);
        Accept(IsoDate.IsoFormat(dt))
    else Accept(value)
  }

  /** `on_get`: only a corrupted `cpf_` or `data_` value is refused. */
  function OnGet(ed: Edition, key: string, value: string): (r: Reply)
    ensures !IsCpfKey(key) && !IsDateKey(key) ==> r == Accept(value)
    ensures IsCpfKey(key) ==> (r.Accept? <==> |value| == 11 && AllDigits(value))
    ensures r.Reject? ==> IsCpfKey(key) || IsDateKey(key)
    ensures IsDateKey(key) ==> (r.Accept? <==> IsoDate.Parse(value, ed).Success?)
  {
    DateKeyIsNotCpfKey(key);
    if IsCpfKey(key) then
      if !(|value| == 11 && AllDigits(value)) then Reject(CpfStoredInvalid)
      else Accept(Cpf.Format(value))
    else if IsDateKey(key) then
      match IsoDate.Parse(value, ed)
      case Failure(err) => Reject(DateGetPrefix + err)
      case Success(dt) => Accept(IsoDate.BrFormat(dt))
    else Accept(value)
  }

  /**
   * On a `cpf_` key the code as written accepts exactly the 11-digit
   * strings whose check digits agree, stores them unchanged, and reports
   * failures in a fixed order: non-digit, then length, then check digit.
   */
  lemma OnAddCpfAsWritten(key: string, value: string)
    requires IsCpfKey(key)
    ensures OnAdd(AsWritten, key, value).Accept? <==>
      |value| == 11 && AllDigits(value) && Cpf.CheckDigitsAgree(value)
    ensures OnAdd(AsWritten, key, value).Accept? ==> OnAdd(AsWritten, key, value).value == value
    ensures !(1 <= |value| && AllDigits(value)) ==> OnAdd(AsWritten, key, value) == Reject(CpfNotDigits)
    ensures 1 <= |value| && AllDigits(value) && |value| != 11 ==> OnAdd(AsWritten, key, value) == Reject(CpfWrongLength)
    ensures |value| == 11 && AllDigits(value) && !Cpf.CheckDigitsAgree(value) ==>
      OnAdd(AsWritten, key, value) == Reject(CpfBadCheck)
  {
    Cpf.IsValidAsWritten(value);
  }

  /**
   * On a `cpf_` key, rendering succeeds exactly on 11 stored digits and
   * yields 14 characters with `.` at positions 4 and 8 and `-` at
   * position 12 (1-based), from which removing the separators gives the
   * stored value back.
   */
  lemma OnGetCpf(ed: Edition, key: string, value: string)
    requires IsCpfKey(key)
    ensures OnGet(ed, key, value).Accept? <==> |value| == 11 && AllDigits(value)
    ensures OnGet(ed, key, value).Reject? ==> OnGet(ed, key, value).error == CpfStoredInvalid
    ensures OnGet(ed, key, value).Accept? ==>
      var r := OnGet(ed, key, value).value;
      && |r| == 14 && r[3] == '.' && r[7] == '.' && r[11] == '-'
      && Cpf.RemoveSeparators(r) == value
  {
    if |value| == 11 && AllDigits(value) {
      Cpf.FormatShape(value);
      Cpf.FormatThenStrip(value);
    }
  }

  /**
   * On a `data_` key, adding succeeds exactly when the date parses, and
   * what is stored is the input itself: the `%04d-%02d-%02d`
   * re-serialisation is the identity on accepted input.
   */
  lemma OnAddDate(ed: Edition, key: string, value: string)
    requires IsDateKey(key)
    ensures OnAdd(ed, key, value).Accept? <==> IsoDate.Parse(value, ed).Success?
    ensures OnAdd(ed, key, value).Accept? ==> OnAdd(ed, key, value).value == value
    ensures OnAdd(ed, key, value).Reject? ==>
      OnAdd(ed, key, value).error == DateAddPrefix + IsoDate.Parse(value, ed).error
  {
    DateKeyIsNotCpfKey(key);
    if IsoDate.Parse(value, ed).Success? {
      IsoDate.IsoFormatOfParsed(value, ed);
    }
  }

  /**
   * On a `data_` key, rendering succeeds exactly when the stored value
   * parses, gives its `DD/MM/YYYY` rendering, and otherwise prefixes the
   * parse message with the stored-value message.
   */
  lemma OnGetDate(ed: Edition, key: string, value: string)
    requires IsDateKey(key)
    ensures OnGet(ed, key, value).Accept? <==> IsoDate.Parse(value, ed).Success?
    ensures OnGet(ed, key, value).Accept? ==>
      OnGet(ed, key, value).value == IsoDate.BrFormat(IsoDate.Parse(value, ed).value)
    ensures OnGet(ed, key, value).Reject? ==>
      OnGet(ed, key, value).error == DateGetPrefix + IsoDate.Parse(value, ed).error
  {
    DateKeyIsNotCpfKey(key);
  }

  /**
   * Date round trip: on a `data_` key, rendering what `on_add` stored
   * gives `DD/MM/YYYY` built from the same day, month and year digits.
   */
  lemma DateRoundTrip(ed: Edition, key: string, value: string)
    requires IsDateKey(key)
    requires OnAdd(ed, key, value).Accept?
    ensures OnGet(ed, key, OnAdd(ed, key, value).value) ==
      Accept(value[8..10] + "/" + value[5..7] + "/" + value[0..4])
  {
    OnAddDate(ed, key, value);
    IsoDate.BrFormatOfParsed(value, ed);
  }

  /** Keys outside both prefixes pass through both hooks unchanged. */
  lemma PassThrough(ed: Edition, key: string, value: string)
    requires !IsCpfKey(key) && !IsDateKey(key)
    ensures OnAdd(ed, key, value) == Accept(value)
    ensures OnGet(ed, key, value) == Accept(value)
  {
  }

  /**
   * Whatever `on_add` accepts, `on_get` renders without error: the
   * corrupted-state branches of `on_get` are never reached through `on_add`.
   */
  lemma AddedValuesRender(ed: Edition, key: string, value: string)
    requires OnAdd(ed, key, value).Accept?
    ensures OnGet(ed, key, OnAdd(ed, key, value).value).Accept?
  {
    if !IsCpfKey(key) && IsDateKey(key) {
      OnAddDate(ed, key, value);
    }
  }

  /** As written, every 11-character repeated-digit CPF, such as `11111111111`, is accepted. */
  lemma RepdigitAcceptedAsWritten(key: string, value: string)
    requires IsCpfKey(key) && |value| == 11 && Cpf.Repdigit(value)
    ensures OnAdd(AsWritten, key, value) == Accept(value)
  {
    Cpf.RepdigitsPassCheckDigits(value);
  }

  /** With the repeated-digit test, every repeated-digit CPF is refused with the check-digit message. */
  lemma RepdigitRejectedCorrected(key: string, value: string)
    requires IsCpfKey(key) && |value| == 11 && Cpf.Repdigit(value)
    ensures OnAdd(Corrected, key, value) == Reject(CpfBadCheck)
  {
    Cpf.RepdigitsPassCheckDigits(value);
  }

  /** With the repeated-digit test, a `cpf_` value is accepted exactly when it is 11 digits, not all the same, with agreeing check digits. */
  lemma OnAddCpfCorrected(key: string, value: string)
    requires IsCpfKey(key)
    ensures OnAdd(Corrected, key, value).Accept? <==>
      |value| == 11 && AllDigits(value) && !Cpf.Repdigit(value) && Cpf.CheckDigitsAgree(value)
  {
    Cpf.IsValidCorrected(value);
  }

  lemma ValidCpfCheckDigits()
    ensures AllDigits("52998224725") && Cpf.CheckDigitsAgree("52998224725")
  {
    var v := "52998224725";
    assert v[0] == '5' && v[1] == '2' && v[2] == '9' && v[3] == '9' && v[4] == '8';
    assert v[5] == '2' && v[6] == '2' && v[7] == '4' && v[8] == '7' && v[9] == '2' && v[10] == '5';
    assert Cpf.WeightedSum(v, 9, 3) == 140;
    assert Cpf.WeightedSum(v, 9, 6) == 261;
    assert Cpf.WeightedSum(v, 9, 9) == 295;
    assert Cpf.WeightedSum(v, 10, 3) == 156;
    assert Cpf.WeightedSum(v, 10, 6) == 296;
    assert Cpf.WeightedSum(v, 10, 9) == 343;
    assert Cpf.WeightedSum(v, 10, 10) == 347;
  }

  /**
   * The valid CPF `52998224725` is accepted under `cpf_x` in both editions
   * and renders as `529.982.247-25`. Key and value are pinned by the
   * `requires` because the rule functions unfold eagerly on literals.
   */
  lemma ValidCpfExample(ed: Edition, key: string, value: string)
    requires key == "cpf_x" && value == "52998224725"
    ensures OnAdd(ed, key, value) == Accept(value)
    ensures OnGet(ed, key, value) == Accept("529.982.247-25")
  {
    ValidCpfCheckDigits();
    assert key[..4] == "cpf_";
    assert value[1] != value[0];
    assert !Cpf.Repdigit(value);
    assert value[0..3] == "529" && value[3..6] == "982" && value[6..9] == "247" && value[9..11] == "25";
  }
}

=== FILE: scenarios.dfy ===
/**
 * Console sessions with the embedded rule set: each lemma follows
 * concrete `ADD` and `GET` lines through parsing, the hooks and the store.
 * The key and value of each line are parameters pinned by the `requires`
 * rather than literal arguments: Dafny unfolds the rule functions on
 * string literals eagerly, which makes the literal form too costly to verify.
 */
module Scenarios {
  import opened Common
  import opened Console
  import opened Store
  import DefaultRules
  import IsoDate
  import Cpf

  lemma ParseAdd(key: string, value: string)
    requires ' ' !in key && |value| > 0 && !IsWhitespace(value[|value| - 1])
    ensures ParseLine("ADD " + key + " " + value) == AddCommand(key, value)
  {
    var w := UpperAscii("ADD");
    assert w[0] == 'A' && w[1] == 'D' && w[2] == 'D';
    assert "ADD " == "ADD" + " ";
    ParseAddLine("ADD " + key + " " + value, "ADD", key, value);
  }

  lemma ParseGet(key: string)
    requires ' ' !in key && |key| > 0 && !IsWhitespace(key[|key| - 1])
    ensures ParseLine("GET " + key) == GetCommand(key)
  {
    var w := UpperAscii("GET");
    assert w[0] == 'G' && w[1] == 'E' && w[2] == 'T';
    assert "GET " == "GET" + " ";
    ParseGetLine("GET " + key, "GET", key);
  }

  lemma CpfKeyClass(key: string)
    requires key == "cpf_x"
    ensures DefaultRules.IsCpfKey(key) && !DefaultRules.IsDateKey(key)
  {
    assert key[..4] == "cpf_";
    assert key[..5][0] == 'c';
  }

  lemma DateKeyClass(key: string)
    requires key == "data_nasc"
    ensures DefaultRules.IsDateKey(key) && !DefaultRules.IsCpfKey(key)
  {
    assert key[..5] == "data_";
    assert key[..4][0] == 'd';
  }

  lemma OtherKeyClass(key: string)
    requires key == "other"
    ensures !DefaultRules.IsCpfKey(key) && !DefaultRules.IsDateKey(key)
  {
    assert key[..4][0] == 'o';
    assert key[..5][0] == 'o';
  }

  lemma ShortKeyClass(short: string)
    requires short == "cpfx"
    ensures FallbackApplies(short) && AltKey(short) == "cpf_x"
  {
    assert short[..3] == "cpf";
    assert short[..4][3] == 'x';
    assert short[3..] == "x";
  }

  lemma ValidCpfAccepted(ed: Edition, key: string, value: string)
    requires key == "cpf_x" && value == "52998224725"
    ensures DefaultRules.OnAdd(ed, key, value) == DefaultRules.Accept(value)
    ensures Cpf.Format(value) == "529.982.247-25"
  {
    DefaultRules.ValidCpfExample(ed, key, value);
    CpfKeyClass(key);
  }

  /** `ADD cpf_x 52998224725` answers OK, and `GET cpf_x` then shows `529.982.247-25`. */
  lemma ValidCpfSession(ed: Edition, db: Db, key: string, value: string)
    requires key == "cpf_x" && value == "52998224725"
    ensures var o := Step(Embedded(ed), db, "ADD " + key + " " + value);
      && o == Outcome(db[key := value], Stored)
      && Step(Embedded(ed), o.db, "GET " + key).response == Shown("529.982.247-25")
  {
    ValidCpfStored(ed, db, key, value);
    assert key[4] == 'x';
    GetStep(Embedded(ed), db[key := value], key);
  }

  /** A `GET <key>` line runs `Get` on the unchanged store. */
  lemma GetStep(e: Engine, db: Db, key: string)
    requires ' ' !in key && |key| > 0 && !IsWhitespace(key[|key| - 1])
    ensures Step(e, db, "GET " + key) == Outcome(db, Get(e, db, key))
  {
    ParseGet(key);
    StepDispatch(e, db, "GET " + key, key, "");
  }

  lemma ValidCpfStored(ed: Edition, db: Db, key: string, value: string)
    requires key == "cpf_x" && value == "52998224725"
    ensures Step(Embedded(ed), db, "ADD " + key + " " + value) == Outcome(db[key := value], Stored)
    ensures Get(Embedded(ed), db[key := value], key) == Shown("529.982.247-25")
  {
    ParseAdd(key, value);
    StepDispatch(Embedded(ed), db, "ADD " + key + " " + value, key, value);
    CpfKeyClass(key);
    ValidCpfAccepted(ed, key, value);
    CpfStoreRoundTrip(ed, db, key, value);
  }

  /** `GET cpfx` finds the CPF stored by `ADD cpf_x 52998224725` when `cpfx` itself is absent. */
  lemma FallbackSession(ed: Edition, short: string, key: string, value: string)
    requires short == "cpfx" && key == "cpf_x" && value == "52998224725"
    ensures var o := Step(Embedded(ed), map[], "ADD " + key + " " + value);
      Step(Embedded(ed), o.db, "GET " + short).response == Shown("529.982.247-25")
  {
    var db: Db := map[];
    ParseAdd(key, value);
    ParseGet(short);
    StepDispatch(Embedded(ed), db, "ADD " + key + " " + value, key, value);
    StepDispatch(Embedded(ed), db[key := value], "GET " + short, short, value);
    ShortKeyClass(short);
    CpfKeyClass(key);
    ValidCpfAccepted(ed, key, value);
    EmbeddedAdd(ed, db, key, value);
    assert Add(Embedded(ed), db, key, value) == Outcome(db[key := value], Stored);
    assert short !in db;
    CpfFallbackRoundTrip(ed, db, short, value);
    assert Get(Embedded(ed), db[key := value], short) == Shown(Cpf.Format(value));
  }

  lemma RepdigitAdds(db: Db, key: string, value: string)
    requires key == "cpf_x" && value == "11111111111"
    ensures Add(Embedded(AsWritten), db, key, value) == Outcome(db[key := value], Stored)
    ensures Add(Embedded(Corrected), db, key, value) == Outcome(db, AddRejected(DefaultRules.CpfBadCheck))
  {
    CpfKeyClass(key);
    assert |value| == 11 && Cpf.Repdigit(value);
    DefaultRules.RepdigitAcceptedAsWritten(key, value);
    DefaultRules.RepdigitRejectedCorrected(key, value);
    EmbeddedAdd(AsWritten, db, key, value);
    EmbeddedAdd(Corrected, db, key, value);
  }

  /** As written, `ADD cpf_x 11111111111` answers OK; with the repeated-digit test it is refused. */
  lemma RepdigitSession(db: Db, key: string, value: string)
    requires key == "cpf_x" && value == "11111111111"
    ensures Step(Embedded(AsWritten), db, "ADD " + key + " " + value) ==
      Outcome(db[key := value], Stored)
    ensures Step(Embedded(Corrected), db, "ADD " + key + " " + value) ==
      Outcome(db, AddRejected(DefaultRules.CpfBadCheck))
  {
    ParseAdd(key, value);
    StepDispatch(Embedded(AsWritten), db, "ADD " + key + " " + value, key, value);
    StepDispatch(Embedded(Corrected), db, "ADD " + key + " " + value, key, value);
    RepdigitAdds(db, key, value);
  }

  /** As written, `ADD data_nasc 1990-02-30` answers OK; with the calendar test it is refused. */
  lemma ImpossibleDateSession(db: Db, key: string, value: string)
    requires key == "data_nasc" && value == "1990-02-30"
    ensures Step(Embedded(AsWritten), db, "ADD " + key + " " + value) ==
      Outcome(db[key := value], Stored)
    ensures Step(Embedded(Corrected), db, "ADD " + key + " " + value) ==
      Outcome(db, AddRejected(DefaultRules.DateAddPrefix + IsoDate.CalendarError))
  {
    ParseAdd(key, value);
    StepDispatch(Embedded(AsWritten), db, "ADD " + key + " " + value, key, value);
    StepDispatch(Embedded(Corrected), db, "ADD " + key + " " + value, key, value);
    DateKeyClass(key);
    IsoDate.February30AcceptedAsWritten();
    IsoDate.February30RejectedCorrected();
    DefaultRules.OnAddDate(AsWritten, key, value);
    EmbeddedAdd(AsWritten, db, key, value);
    EmbeddedAdd(Corrected, db, key, value);
  }

  lemma ValidDateAccepted(ed: Edition, key: string, value: string)
    requires key == "data_nasc" && value == "1990-02-14"
    ensures DefaultRules.OnAdd(ed, key, value).Accept?
    ensures value[8..10] + "/" + value[5..7] + "/" + value[0..4] == "14/02/1990"
  {
    DateKeyClass(key);
    var y, m, d := value[0..4], value[5..7], value[8..10];
    assert y == "1990" && m == "02" && d == "14";
    assert y[..3] == "199" && y[..2] == "19" && y[..1] == "1" && m[..1] == "0" && d[..1] == "1";
    assert Text.DecimalValue(m) == 2;
    assert Text.DecimalValue(d) == 14;
    assert IsoDate.Parse(value, ed).Success?;
    DefaultRules.OnAddDate(ed, key, value);
  }

  /** `ADD data_nasc 1990-02-14` answers OK, and `GET data_nasc` then shows `14/02/1990`. */
  lemma DateSession(ed: Edition, db: Db, key: string, value: string)
    requires key == "data_nasc" && value == "1990-02-14"
    ensures var o := Step(Embedded(ed), db, "ADD " + key + " " + value);
      && o == Outcome(db[key := value], Stored)
      && Step(Embedded(ed), o.db, "GET " + key).response == Shown("14/02/1990")
  {
    ParseAdd(key, value);
    ParseGet(key);
    StepDispatch(Embedded(ed), db, "ADD " + key + " " + value, key, value);
    StepDispatch(Embedded(ed), db[key := value], "GET " + key, key, value);
    DateKeyClass(key);
    ValidDateAccepted(ed, key, value);
    DefaultRules.OnAddDate(ed, key, value);
    EmbeddedAdd(ed, db, key, value);
    DateStoreRoundTrip(ed, db, key, value);
  }

  /** `ADD other hello world` answers OK, and `GET other` then shows `hello world`. */
  lemma PassThroughSession(ed: Edition, db: Db, key: string, value: string)
    requires key == "other" && value == "hello world"
    ensures var o := Step(Embedded(ed), db, "ADD " + key + " " + value);
      && o == Outcome(db[key := value], Stored)
      && Step(Embedded(ed), o.db, "GET " + key).response == Shown(value)
  {
    ParseAdd(key, value);
    ParseGet(key);
    StepDispatch(Embedded(ed), db, "ADD " + key + " " + value, key, value);
    StepDispatch(Embedded(ed), db[key := value], "GET " + key, key, value);
    OtherKeyClass(key);
    DefaultRules.PassThrough(ed, key, value);
    EmbeddedAdd(ed, db, key, value);
    PassThroughStoreRoundTrip(ed, db, key, value);
  }
}

=== FILE: store.dfy ===
/**
 * The in-memory store and one turn of the console loop: ADD runs the
 * `on_add` hook and writes only on success; GET runs the `on_get` hook on
 * the stored value, with a one-shot fallback from `cpfX` to `cpf_X`.
 */
module Store {
  import opened Common
  import opened Text
  import opened Hook
  import opened Console
  import DefaultRules
  import Cpf

  type Db = map<string, string>

  /**
   * The loaded rule engine: what the `on_add` and `on_get` hooks reply
   * when called with a key and a value. Hooks are pure functions of their
   * arguments.
   */
  datatype Engine = Engine(onAdd: (string, string) -> HookReply, onGet: (string, string) -> HookReply)

  /** The embedded default rule set. */
  function Embedded(ed: Edition): Engine {
    Engine((k, v) => DefaultRules.TableRet(DefaultRules.OnAdd(ed, k, v)),
           (k, v) => DefaultRules.TableRet(DefaultRules.OnGet(ed, k, v)))
  }

  /** A rule source that defines neither hook. */
  const NoHooks: Engine := Engine((k, v) => Absent, (k, v) => Absent)

  /** The reason reported when a failing hook gives none. */
  const UnknownReason: string := "motivo desconhecido"

  datatype Response =
    | Stored                        // `OK`
    | AddRejected(reason: string)   // `Erro ao adicionar: <reason>`
    | Shown(text: string)           // the rendered value
    | RenderRejected(reason: string)  // `Erro ao formatar: <reason>`
    | KeyNotFound
    | AddUsageError
    | GetUsageError
    | InvalidCommand
    | Skipped                       // a blank line
    | Stopped                       // `exit` or `quit`

  datatype Outcome = Outcome(db: Db, response: Response)

  /**
   * ADD: the hook decides; on success the key is bound to the hook's value,
   * or to the original value when the hook gives none, and no other key
   * changes; on failure nothing changes.
   */
  function Add(e: Engine, db: Db, key: string, value: string): (o: Outcome)
    ensures o.response == Stored || o.response.AddRejected?
    ensures o.response == Stored ==> key in o.db
    ensures o.response.AddRejected? ==> o.db == db
    ensures forall k :: k in db && k != key ==> k in o.db && o.db[k] == db[k]
    ensures forall k :: k in o.db ==> k in db || k == key
  {
    var tr := CallTransform(e.onAdd(key, value), Some(value));
    if tr.ok then Outcome(db[key := tr.value.GetOr(value)], Stored)
    else Outcome(db, AddRejected(tr.error.GetOr(UnknownReason)))
  }

  /** What ADD writes, in terms of the hook's reply. */
  lemma AddWrites(e: Engine, db: Db, key: string, value: string)
    ensures var tr, o := CallTransform(e.onAdd(key, value), Some(value)), Add(e, db, key, value);
      && (o.response == Stored <==> tr.ok)
      && (tr.ok && tr.value.Some? ==> o.db[key] == tr.value.value)
      && (tr.ok && tr.value.None? ==> o.db[key] == value)
      && (!tr.ok && tr.error.Some? ==> o.response == AddRejected(tr.error.value))
      && (!tr.ok && tr.error.None? ==> o.response == AddRejected(UnknownReason))
  {
  }

  /** Repeating a successful ADD leaves the same store. */
  lemma AddIdempotent(e: Engine, db: Db, key: string, value: string)
    ensures var o := Add(e, db, key, value);
      Add(e, o.db, key, value) == o
  {
  }

  /** Runs `on_get` on a stored value and renders the outcome. */
  function Render(e: Engine, key: string, raw: string): (r: Response)
    ensures r.Shown? || r.RenderRejected?
  {
    var tr := CallTransform(e.onGet(key, raw), Some(raw));
    if tr.ok then Shown(tr.value.GetOr(raw)) else RenderRejected(tr.error.GetOr(UnknownReason))
  }

  /** What GET shows for a stored value, in terms of the hook's reply. */
  lemma RenderShows(e: Engine, key: string, raw: string)
    ensures var tr, r := CallTransform(e.onGet(key, raw), Some(raw)), Render(e, key, raw);
      && (r.Shown? <==> tr.ok)
      && (tr.ok && tr.value.Some? ==> r == Shown(tr.value.value))
      && (tr.ok && tr.value.None? ==> r == Shown(raw))
      && (!tr.ok && tr.error.Some? ==> r == RenderRejected(tr.error.value))
      && (!tr.ok && tr.error.None? ==> r == RenderRejected(UnknownReason))
  {
  }

  /** A key that GET retries with an underscore after a miss: `cpf` not followed by `_`. */
  function FallbackApplies(key: string): (b: bool)
    ensures b <==> |key| >= 3 && key[..3] == "cpf" && (|key| == 3 || key[3] != '_')
  {
    StartsWith(key, "cpf") && !StartsWith(key, "cpf_")
  }

  /** `format!("cpf_{}", &key[3..])`. */
  function AltKey(key: string): (alt: string)
    requires StartsWith(key, "cpf")
    ensures StartsWith(alt, "cpf_") && alt[4..] == key[3..]
    ensures alt != key
  {
    "cpf_" + key[3..]
  }

  /**
   * GET: a hit renders the stored value; a miss on a fallback key renders
   * the value under the alternate key if that one is present; every other
   * miss reports not found.
   */
  function Get(e: Engine, db: Db, key: string): (r: Response)
    ensures r.Shown? || r.RenderRejected? || r == KeyNotFound
    ensures r == KeyNotFound <==> key !in db && !(FallbackApplies(key) && AltKey(key) in db)
    ensures key in db ==> r == Render(e, key, db[key])
  {
    if key in db then Render(e, key, db[key])
    else if FallbackApplies(key) && AltKey(key) in db then Render(e, AltKey(key), db[AltKey(key)])
    else KeyNotFound
  }

  /**
   * The fallback looks up the alternate key once, renders it under that
   * key, and is never attempted again for the alternate key; a miss on any
   * other key is reported as not found.
   */
  lemma GetOnMiss(e: Engine, db: Db, key: string)
    requires key !in db
    ensures !FallbackApplies(key) ==> Get(e, db, key) == KeyNotFound
    ensures FallbackApplies(key) ==> !FallbackApplies(AltKey(key))
    ensures FallbackApplies(key) && AltKey(key) in db ==> Get(e, db, key) == Render(e, AltKey(key), db[AltKey(key)])
    ensures FallbackApplies(key) && AltKey(key) !in db ==> Get(e, db, key) == KeyNotFound
  {
  }

  /** One turn of the console loop on a line of input; only ADD can change the store. */
  function Step(e: Engine, db: Db, line: string): (o: Outcome)
    ensures !ParseLine(line).AddCommand? ==> o.db == db
    ensures ParseLine(line).GetCommand? ==> o.response == Get(e, db, ParseLine(line).key)
    ensures ParseLine(line) == Quit <==> o.response == Stopped
  {
    var c := ParseLine(line);
    match c
    case Blank => Outcome(db, Skipped)
    case Quit => Outcome(db, Stopped)
    case AddCommand(k, v) => Add(e, db, k, v)
    case GetCommand(k) => Outcome(db, Get(e, db, k))
    case AddUsage => Outcome(db, AddUsageError)
    case GetUsage => Outcome(db, GetUsageError)
    case Invalid => Outcome(db, InvalidCommand)
  }

  /** A parsed ADD line is an ADD; a parsed GET line is a GET on an unchanged store. */
  lemma StepDispatch(e: Engine, db: Db, line: string, key: string, value: string)
    ensures ParseLine(line) == AddCommand(key, value) ==> Step(e, db, line) == Add(e, db, key, value)
    ensures ParseLine(line) == GetCommand(key) ==> Step(e, db, line) == Outcome(db, Get(e, db, key))
  {
  }

  /** With the embedded rules, a hook reply is read back as exactly the rule's decision. */
  lemma EmbeddedAdd(ed: Edition, db: Db, key: string, value: string)
    ensures var r, o := DefaultRules.OnAdd(ed, key, value), Add(Embedded(ed), db, key, value);
      && (r.Accept? ==> o == Outcome(db[key := r.value], Stored))
      && (r.Reject? ==> o == Outcome(db, AddRejected(r.error)))
  {
    DefaultRules.TableRetReadBack(DefaultRules.OnAdd(ed, key, value), Some(value));
  }

  lemma EmbeddedRender(ed: Edition, key: string, raw: string)
    ensures var r := DefaultRules.OnGet(ed, key, raw);
      && (r.Accept? ==> Render(Embedded(ed), key, raw) == Shown(r.value))
      && (r.Reject? ==> Render(Embedded(ed), key, raw) == RenderRejected(r.error))
  {
    DefaultRules.TableRetReadBack(DefaultRules.OnGet(ed, key, raw), Some(raw));
  }

  /** A CPF that ADD accepts is stored as given and read back in `XXX.XXX.XXX-XX` form. */
  lemma CpfStoreRoundTrip(ed: Edition, db: Db, key: string, value: string)
    requires DefaultRules.IsCpfKey(key) && DefaultRules.OnAdd(ed, key, value).Accept?
    ensures var o := Add(Embedded(ed), db, key, value);
      && o.response == Stored && o.db[key] == value
      && Get(Embedded(ed), o.db, key) == Shown(Cpf.Format(value))
  {
    EmbeddedAdd(ed, db, key, value);
    EmbeddedRender(ed, key, value);
  }

  /** A date that ADD accepts is stored as given and read back as `DD/MM/YYYY` from the same digits. */
  lemma DateStoreRoundTrip(ed: Edition, db: Db, key: string, value: string)
    requires DefaultRules.IsDateKey(key) && DefaultRules.OnAdd(ed, key, value).Accept?
    ensures var o := Add(Embedded(ed), db, key, value);
      && o.response == Stored && o.db[key] == value
      && Get(Embedded(ed), o.db, key) == Shown(value[8..10] + "/" + value[5..7] + "/" + value[0..4])
  {
    DefaultRules.OnAddDate(ed, key, value);
    DefaultRules.DateRoundTrip(ed, key, value);
    EmbeddedAdd(ed, db, key, value);
    EmbeddedRender(ed, key, value);
  }

  /** Outside both prefixes, whatever is added is read back unchanged. */
  lemma PassThroughStoreRoundTrip(ed: Edition, db: Db, key: string, value: string)
    requires !DefaultRules.IsCpfKey(key) && !DefaultRules.IsDateKey(key)
    ensures var o := Add(Embedded(ed), db, key, value);
      o.response == Stored && Get(Embedded(ed), o.db, key) == Shown(value)
  {
    DefaultRules.PassThrough(ed, key, value);
    EmbeddedAdd(ed, db, key, value);
    EmbeddedRender(ed, key, value);
  }

  /** With no hooks defined, every key stores and reads back its value unchanged. */
  lemma NoHooksRoundTrip(db: Db, key: string, value: string)
    ensures var o := Add(NoHooks, db, key, value);
      o == Outcome(db[key := value], Stored) && Get(NoHooks, o.db, key) == Shown(value)
  {
  }

  /** A CPF stored under `cpf_X` is found by `GET cpfX` when `cpfX` itself is absent. */
  lemma CpfFallbackRoundTrip(ed: Edition, db: Db, short: string, value: string)
    requires FallbackApplies(short)
    requires DefaultRules.OnAdd(ed, AltKey(short), value).Accept?
    ensures var o := Add(Embedded(ed), db, AltKey(short), value);
      short !in db ==> Get(Embedded(ed), o.db, short) == Shown(Cpf.Format(value))
  {
    var alt := AltKey(short);
    assert DefaultRules.IsCpfKey(alt);
    CpfStoreRoundTrip(ed, db, alt, value);
  }
}

=== FILE: text.dfy ===
/**
 * Character and number helpers for the embedded rule set: the Lua `%d`
 * character class (ASCII digits), `tonumber` on a digit string, the
 * `string.format` directive `%0<width>d`, and anchored prefix matching.
 */
module Text {

  /** Lua's `%d` class, read in the C locale: the ASCII digits. */
  predicate IsDigit(c: char) {
    '0' <= c <= '9'
  }

  predicate AllDigits(s: string) {
    forall i :: 0 <= i < |s| ==> IsDigit(s[i])
  }

  /** The first `n` characters of `s` exist and are all digits. */
  predicate DigitPrefix(s: string, n: nat) {
    n <= |s| && forall i :: 0 <= i < n ==> IsDigit(s[i])
  }

  function DigitValue(c: char): (d: nat)
    requires IsDigit(c)
    ensures d < 10
  {
    c as int - '0' as int
  }

  function DigitChar(d: nat): (c: char)
    requires d < 10
    ensures IsDigit(c) && DigitValue(c) == d
  {
    ('0' as int + d) as char
  }

  lemma DigitCharOfValue(c: char)
    requires IsDigit(c)
    ensures DigitChar(DigitValue(c)) == c
  {
  }

  function Pow10(n: nat): (p: nat)
    ensures p >= 1
  {
    if n == 0 then 1 else 10 * Pow10(n - 1)
  }

  /** Lua's `tonumber` applied to a string of decimal digits. */
  function DecimalValue(s: string): (n: nat)
    requires AllDigits(s)
    ensures n < Pow10(|s|)
  {
    if |s| == 0 then 0
    else DecimalValue(s[..|s| - 1]) * 10 + DigitValue(s[|s| - 1])
  }

  lemma DecimalValueSnoc(p: string, c: char)
    requires AllDigits(p) && IsDigit(c)
    ensures AllDigits(p + [c])
    ensures DecimalValue(p + [c]) == DecimalValue(p) * 10 + DigitValue(c)
  {
    assert (p + [c])[..|p|] == p;
  }

  /**
   * The text `string.format("%0<width>d", n)` produces for a non-negative
   * integer: its decimal digits, left-padded with zeros to at least `width`
   * characters and never truncated.
   */
  function PadDecimal(n: nat, width: nat): (r: string)
    ensures AllDigits(r) && 1 <= |r|
    ensures width <= |r|
    ensures 1 <= width && n < Pow10(width) ==> |r| == width
    ensures DecimalValue(r) == n
    decreases n + width
  {
    if n < 10 && width <= 1 then [DigitChar(n)]
    else
      var p := PadDecimal(n / 10, if width == 0 then 0 else width - 1);
      assert 1 <= width && n < Pow10(width) ==> width >= 2 && n / 10 < Pow10(width - 1);
      DecimalValueSnoc(p, DigitChar(n % 10));
      p + [DigitChar(n % 10)]
  }

  /** Reading a digit string and printing it back at its own width gives the same string. */
  lemma {:induction false} PadDecimalOfDigits(s: string)
    requires AllDigits(s) && 1 <= |s|
    ensures PadDecimal(DecimalValue(s), |s|) == s
    decreases |s|
  {
    var p, c := s[..|s| - 1], s[|s| - 1];
    assert s == p + [c];
    DigitCharOfValue(c);
    if |s| == 1 {
      assert DecimalValue(p) == 0;
    } else {
      var n := DecimalValue(s);
      assert n == DecimalValue(p) * 10 + DigitValue(c);
      assert n / 10 == DecimalValue(p) && n % 10 == DigitValue(c);
      PadDecimalOfDigits(p);
    }
  }

  /** Lua's anchored match `s:match("^<prefix>")` for a literal prefix. */
  predicate StartsWith(s: string, prefix: string) {
    |prefix| <= |s| && s[..|prefix|] == prefix
  }
}
